=== FILE: README.md ===
# apollo-offline in Dafny

A model of the decision logic of apollo-offline, a library that lets an Apollo
client keep issuing GraphQL requests while offline by putting a decorator in
front of the real network interface and hooking it to a redux-offline queue.

- `Transport` models `OfflineNetworkInterface`. For each request, `query` picks
  one of three paths:
  - Optimistic: serve the cached value and refresh it in the background.
  - Queued: dispatch an `APOLLO_OFFLINE_QUEUE` action whose effect carries the
    request and the promise's resolver.
  - Pass-through: send the request on the wrapped transport.

  `setClient`, `use` and `useAfter` are chainable.
- `Reducer` models the rehydrated-flag reducer. The flag is `false` until
  `REHYDRATE_STORE`, then `true` for good.
- `Enhancer` models the store enhancer:
  - the persistence blacklist with the reserved key appended;
  - the reducer wrapper that hides the reserved key from the application's
    reducer and re-adds the flag;
  - the effect hook that sends queued requests and calls their callbacks;
  - the persist callback that dispatches `REHYDRATE_STORE`;
  - attaching the created store to the interceptor.
- `Integration` relates the pieces across calls. A queued request is later sent
  by the effect hook and fulfils the original promise. The persist callback
  leaves the flag `true` for good. Enhancing a store turns on queueing.
- `Constants` holds the four reserved action types as distinct tags.
  `Messages` holds requests, responses, actions and the event trace.
  `Values` holds JavaScript values and truthiness, and promise settlements.

Promises are modelled as settlements: `Pending`, `Fulfilled(v)` or
`Rejected(reason)`. Side effects are an ordered trace of `Event`s:
- cache read and write;
- dispatch;
- transport send, `use` and `useAfter`;
- callback invocation;
- the application's own effect and persist callback.

The outside world's behaviour is passed in as parameters:
- what the cache read returns or throws;
- what the wrapped transport's promise does;
- whether the cache write throws;
- what the application's fallback effect returns;
- which store `createStore` returns.

A failed cache read on the optimistic branch always falls through to the plain
send, even when a store is attached, because the queue branch is an `else if`.
The persist callback
calls the application's callback first and then dispatches `REHYDRATE_STORE`.

## Model

| member | source | states |
|---|---|---|
| `Constants.Parse` | src/constants.ts:8-15 | reading a type string gives a tag that spells the same string, and the tag is one of the four reserved ones exactly when the string is a reserved name |
| `Constants.SameTypeIffSameName` | src/constants.ts:9-15 | two action types are equal exactly when their type strings are equal, so a tag comparison is the source's `action.type === X` |
| `Reducer.Rehydrated` | src/reducer.ts:11-14 | `REHYDRATE_STORE` gives `true` from any state; an undefined state with another action gives `false`; any other state with another action is returned unchanged |
| `Reducer.FoldFromFlag` | src/reducer.ts:11-14 | reducing any action sequence from flag `b` gives `b` or (a `REHYDRATE_STORE` action occurs in the sequence) |
| `Reducer.FoldFromUndefined` | src/reducer.ts:11-13 | from the undefined initial state, a non-empty action sequence gives `true` exactly when it contains `REHYDRATE_STORE`, otherwise `false` |
| `Reducer.TrueIsAbsorbing` | src/reducer.ts:12-13 | from `true`, every action sequence leaves the flag `true` |
| `Reducer.Idempotent` | src/reducer.ts:11-14 | reducing the same action twice equals reducing it once |
| `Reducer.NeverReverts` | src/reducer.ts:11-14 | once a prefix of the actions has set the flag, every extension keeps it `true` |
| `Transport.Query` | src/transport.ts:30-68 | exactly one path per call. Optimistic iff the `__offline__` variable is truthy, a client is attached and the read succeeds. Queued iff the optimistic guard fails and a store is attached. Pass-through otherwise, including a failed read with a store attached. The cache is read exactly once, first and for this request, iff the guard holds, and never otherwise. Outside the queued path the identical request is sent exactly once and nothing is dispatched. The queued path's whole trace is one dispatch of the queue action to the attached store. It sends nothing and leaves the promise pending. Pass-through settles like the transport and writes nothing. The optimistic path sends straight after the read and fulfils with `{data: cached}`. `(request, data)` is written back only on the optimistic path and only when the background send fulfils. The trace holds nothing but cache reads and writes, sends and dispatches. Only the optimistic path leaves a background chain, and that chain never rejects |
| `Transport.Refresh` | src/transport.ts:40-43 | the background refresh dispatches and sends nothing itself. It writes `(request, data)` back exactly when the send fulfils. Its chain rejects exactly when the send rejects or the write throws |
| `Transport.Swallow` | src/transport.ts:43 | after the final catch the background chain never rejects, and an unrejected chain is unchanged |
| `Transport.QueuedActionShape` | src/transport.ts:47-62 | the one dispatched action has type `APOLLO_OFFLINE_QUEUE`. Its effect holds the input request and the promise's resolver. Its commit is `{type: APOLLO_OFFLINE_COMMIT, meta: {request}}` and its rollback is `{type: APOLLO_OFFLINE_ROLLBACK, meta: {request}}` |
| `Transport.CallbackResolvesQuery` | src/transport.ts:53-56 | invoking the queued action's callback with `r` fulfils the pending query with exactly `r`, and later invocations change nothing |
| `Transport.OptimisticIgnoresBackground` | src/transport.ts:33-45 | on a cache hit the path and the `{data: V}` answer are the same for every background send outcome and every write outcome. Nothing is dispatched. `(request, data)` is written back exactly when the send fulfils |
| `Transport.SetClient` | src/transport.ts:71-74 | the client is the one given and the store is kept |
| `Transport.SetClientEnablesCache` | src/transport.ts:71-74 | after `setClient`, an offline-flagged request with a cache hit takes the optimistic path whatever the store. A later `setClient` replaces an earlier one |
| `Transport.Use` | src/transport.ts:77-80 | `use` forwards its argument once, unchanged, to the wrapped transport and returns the interceptor unchanged |
| `Transport.UseAfter` | src/transport.ts:83-86 | `useAfter` forwards its argument once, unchanged, to the wrapped transport and returns the interceptor unchanged |
| `Transport.WaresKeepDecisions` | src/transport.ts:77-86 | chaining `use` and `useAfter` forwards each argument once, in call order. For the same transport, cache and write outcomes, every later query's path, trace and settlement are unchanged |
| `Enhancer.Blacklist` | src/enhancer.ts:29-32 | the blacklist is the caller's entries in their original order followed by the reserved key. Without a caller blacklist it is `[key]` |
| `Enhancer.OfflinePersistOptions` | src/enhancer.ts:78-81 | the blacklist passed on is exactly the caller's entries plus the reserved key, and the caller's other options are kept |
| `Enhancer.StripKey` | src/enhancer.ts:39 | the caller's view of the state lacks the reserved key and has every other key with its value |
| `Enhancer.EnhancedReduce` | src/enhancer.ts:38-44 | an undefined state counts as `{}`. The reserved key is always present and holds the flag reducer applied to its old value, overriding the caller's output there. Every other key is exactly the caller reducer's output on the stripped state |
| `Enhancer.CallerUnawareOfKey` | src/enhancer.ts:38-44 | states that differ only under the reserved key give the same result outside that key |
| `Enhancer.InitialState` | src/enhancer.ts:38-44 | from an undefined state, with an identity reducer and a non-rehydrate action, the state is `{[key]: false}` |
| `Enhancer.FlagSliceFollowsReducer` | src/enhancer.ts:38-44 | whatever the caller's reducer does, the reserved slot after any action sequence is the flag reducer folded over that sequence from the slot's old value |
| `Enhancer.RunEffect` | src/enhancer.ts:52-70 | a queue action sends `effect.request` once, first, on the wrapped transport, not through the interceptor's decision. Its trace holds only that send and callback calls: no cache access, dispatch or application effect. It calls a callable callback once with the response iff the send fulfils, and settles like the send. Any other action never sends or calls back. It delegates `(effect, action)` to the caller's effect and settles like it, or rejects with `'Unhandled offline effect'` when there is none |
| `Enhancer.PersistCallback` | src/enhancer.ts:71-77 | the caller's callback runs iff supplied, then exactly once and first. If it returns, exactly one `{type: REHYDRATE_STORE}` is dispatched, to the given store, as the last event, and nothing escapes. If it throws, its exception escapes and nothing is dispatched. Nothing else happens |
| `Enhancer.Enhance` | src/enhancer.ts:17-89 | the created store is attached to the interceptor, which keeps its client. The key defaults to `'rehydrated'`. The persistence options handed on are exactly the caller's with the blacklist replaced by the caller's entries plus the key |
| `Integration.EnhanceEnablesQueueing` | src/enhancer.ts:86-88 | after enhancement, every request that does not try the cache is queued by exactly one dispatch to the created store and never sent directly |
| `Integration.QueuedRequestCompletes` | src/enhancer.ts:53-61 | when the effect hook runs a queued action and the transport answers `r`, the identical request is sent once. The original query's promise is fulfilled with exactly `r`, and the hook returns `r` |
| `Integration.QueuedRequestFailureKeepsPending` | src/enhancer.ts:53-61 | when the queued send rejects or never completes, the original promise stays pending and the hook settles like the send |
| `Integration.PersistCallbackRehydrates` | src/enhancer.ts:71-77 | unless the caller's callback throws, an enhanced store's persist callback dispatches `REHYDRATE_STORE` to the created store. Once that dispatch is reduced, the slot under the enhancer's key is `true` from any prior state, and it stays `true` after any further actions. If the caller's callback throws, the slot is whatever the later actions alone make it |
| `Integration.NotRehydratedUntilSignalled` | src/enhancer.ts:38-44 | on a store without the flag, a non-empty run of actions without `REHYDRATE_STORE` leaves the slot `false` |

## Left out

- src/index.ts is not part of this model. It is a factory that builds the interceptor and passes it to the enhancer.
- The jest mocks and the test suites are not modelled. The behaviour the tests check is stated in the contracts.
- Promise scheduling is not modelled. Each promise is the settlement it reaches, and side effects are an ordered trace.
- Redux `createStore`, `compose`, the caller's extra enhancer, `preloadedState` and the store's own initialisation dispatch are external. The created store is a parameter.
- The internals of redux-offline are external: retry, backoff, persistence, and when it runs the effect or fires commit or rollback.
- Apollo's `readQuery` and `writeQuery` are external. They are a read outcome and a write outcome.
- `writeQuery` returns nothing, so the background chain fulfils with `undefined`.
- A synchronous throw from the wrapped transport's `query` is not modelled. In the source such a throw inside the optimistic `try` would fall through to a second send.
- A throwing `store.dispatch` is not modelled. It would reject the query's promise.
- A throwing application callback inside the effect hook is not modelled. It would reject the hook's promise.
- Enhancer.RunEffect: a caller `effect` that throws synchronously is not modelled. The caller's effect is the settlement it reaches; in the source such a throw escapes the effect hook instead of producing a rejected promise.
- The blacklist is modelled as a returned sequence. In the source, `push` also mutates the caller's own `persistOptions.blacklist` array. So enhancing twice with the same configuration object appends the key twice.
- The background write re-checks `this.client` when the response arrives. The model writes through the client attached at call time. A client replaced or removed in between is not modelled.
- Middleware and afterware are opaque values, and requests carry only `operationName`, `query` and `variables`.
- Truthiness of NaN and negative zero is not modelled.
- Transport.SetClient: "returns the same instance" is stated as returning the updated interceptor value. Reference identity of `this` has no counterpart for immutable values.
- Transport.Use: "returns the same instance" is stated as value equality with the input interceptor. The same holds for `Transport.UseAfter`.

=== FILE: constants.dfy ===
/** The four action types the library reserves, as distinct tags. Any other
    action type the application uses is a `Custom` tag holding its string. */
module Constants {

  datatype Tag =
    | ApolloOfflineQueue     // a request to be queued by the offline queue
    | ApolloOfflineCommit    // dispatched after a queued request succeeded
    | ApolloOfflineRollback  // dispatched after a queued request failed for good
    | RehydrateStore         // dispatched once persisted state has been restored
    | Custom(name: string)

  /** The string each tag stands for. */
  function Name(t: Tag): string
  {
    match t
    case ApolloOfflineQueue => "APOLLO_OFFLINE_QUEUE"
    case ApolloOfflineCommit => "APOLLO_OFFLINE_COMMIT"
    case ApolloOfflineRollback => "APOLLO_OFFLINE_ROLLBACK"
    case RehydrateStore => "REHYDRATE_STORE"
    case Custom(n) => n
  }

  predicate IsReservedName(s: string)
  {
    s == "APOLLO_OFFLINE_QUEUE" || s == "APOLLO_OFFLINE_COMMIT"
    || s == "APOLLO_OFFLINE_ROLLBACK" || s == "REHYDRATE_STORE"
  }

  /** Canonical tags: a `Custom` tag never spells a reserved name, so two action
      types are equal exactly when their strings are (see `SameTypeIffSameName`). */
  type ActionType = t: Tag | t.Custom? ==> !IsReservedName(t.name) witness ApolloOfflineQueue

  /** Reads an action's `type` string as a canonical tag. */
  function Parse(s: string): (t: ActionType)
    ensures Name(t) == s
    ensures IsReservedName(s) <==> !t.Custom?
  {
    if s == "APOLLO_OFFLINE_QUEUE" then ApolloOfflineQueue
    else if s == "APOLLO_OFFLINE_COMMIT" then ApolloOfflineCommit
    else if s == "APOLLO_OFFLINE_ROLLBACK" then ApolloOfflineRollback
    else if s == "REHYDRATE_STORE" then RehydrateStore
    else Custom(s)
  }

  /** Parsing the string of a canonical tag gives the tag back. */
  lemma ParseName(t: ActionType)
    ensures Parse(Name(t)) == t
  {
  }

  /** Comparing tags is comparing the type strings, as `action.type === X` does. */
  lemma SameTypeIffSameName(a: ActionType, b: ActionType)
    ensures a == b <==> Name(a) == Name(b)
  {
  }
}

=== FILE: enhancer.dfy ===
/** The store enhancer: wires the offline queue to the interceptor. It adds the
    rehydrated flag to the application's state under a reserved key, keeps that
    key out of persisted state, runs queued requests through the wrapped
    transport, and marks the store rehydrated once persisted state is back. */
module Enhancer {
  import opened Values
  import opened Constants
  import opened Messages
  import Reducer
  import Transport

  /** The reserved state key when the caller names none. */
  const DefaultRehydratedKey: string := "rehydrated"

  /** Top-level application state: an object of named slices. */
  type State = map<string, Value>

  /** The application's own reducer (a pure function of state and action). */
  type CallerReducer = (State, Action) -> State

  /** The application's fallback effect: what its returned promise does. */
  type EffectFn = (Effect, Action) -> Settlement<Response>

  /** `persistOptions`: an optional blacklist of state keys and any other options. */
  datatype PersistOptions = PersistOptions(blacklist: Option<seq<string>>, others: map<string, Value>)

  /** The caller's own persist callback: absent, or supplied and then either
      returning or throwing `reason`. */
  datatype CallerCallback = NoCallback | Returns | Throws(reason: Value)

  /** The offline-queue configuration the caller passes in. Only the options
      this layer reads are modelled. */
  datatype Config = Config(
    effect: Option<EffectFn>,
    persistCallback: CallerCallback,
    persistOptions: Option<PersistOptions>)

  /** What became of one enhancer application: the store `createStore` returned,
      the interceptor with that store attached, the reserved key, and the
      persistence options handed on to the offline queue. */
  datatype Enhanced = Enhanced(
    store: StoreRef,
    interceptor: Transport.Interceptor,
    key: string,
    persistOptions: PersistOptions)

  /** The value a state holds under `key`; `undefined` when absent. */
  function Lookup(s: State, key: string): Value
  {
    if key in s then s[key] else Undefined
  }

  /** The caller's blacklist, or none. */
  function CallerBlacklist(po: Option<PersistOptions>): seq<string>
  {
    if po.Some? && po.value.blacklist.Some? then po.value.blacklist.value else []
  }

  /** The blacklist handed to the offline queue: the caller's entries, in their
      order, followed by the reserved key. */
  function Blacklist(po: Option<PersistOptions>, key: string): (r: seq<string>)
    ensures |r| == |CallerBlacklist(po)| + 1
    ensures r[..|r| - 1] == CallerBlacklist(po)
    ensures r[|r| - 1] == key
  {
    CallerBlacklist(po) + [key]
  }

  /** `{ ...persistOptions, blacklist }`: the caller's other options survive. */
  function OfflinePersistOptions(po: Option<PersistOptions>, key: string): (r: PersistOptions)
    ensures r.blacklist == Some(Blacklist(po, key))
    ensures key in r.blacklist.value
    ensures forall x :: x in CallerBlacklist(po) ==> x in r.blacklist.value
    ensures r.others == (if po.Some? then po.value.others else map[])
  {
    var bl := Blacklist(po, key);
    assert bl == CallerBlacklist(po) + [key];
    PersistOptions(Some(bl), if po.Some? then po.value.others else map[])
  }

  /** The state with the reserved key removed: what the caller's reducer sees. */
  function StripKey(s: State, key: string): (rest: State)
    ensures key !in rest
    ensures forall k :: k != key ==> (k in rest <==> k in s)
    ensures forall k :: k in rest ==> rest[k] == s[k]
  {
    s - {key}
  }

  /** The reducer the store is created with. An undefined state is the empty
      object; the caller's reducer runs on the state without the reserved key,
      and the flag reducer's result is put under the key, over anything the
      caller's reducer may have put there. */
  function EnhancedReduce(reducer: CallerReducer, key: string, state: Option<State>, action: Action): (r: State)
    ensures var s := if state.Some? then state.value else map[];
      && key in r
      && r[key] == Reducer.Rehydrated(Lookup(s, key), action)
      && var caller := reducer(StripKey(s, key), action);
      && (forall k :: k != key ==> (k in r <==> k in caller))
      && (forall k :: k != key && k in r ==> r[k] == caller[k])
  {
    var s := if state.Some? then state.value else map[];
    reducer(s - {key}, action)[key := Reducer.Rehydrated(Lookup(s, key), action)]
  }

  /** The state after the store has reduced `actions` in dispatch order. */
  function FoldEnhanced(reducer: CallerReducer, key: string, s: State, actions: seq<Action>): State
    decreases |actions|
  {
    if actions == [] then s
    else FoldEnhanced(reducer, key, EnhancedReduce(reducer, key, Some(s), actions[0]), actions[1..])
  }

  /** Two states that differ only under the reserved key lead to the same
      caller-visible result: the caller's reducer never observes the flag. */
  lemma CallerUnawareOfKey(reducer: CallerReducer, key: string, s1: State, s2: State, action: Action)
    requires StripKey(s1, key) == StripKey(s2, key)
    ensures StripKey(EnhancedReduce(reducer, key, Some(s1), action), key)
         == StripKey(EnhancedReduce(reducer, key, Some(s2), action), key)
  {
  }

  /** From an undefined state, with a reducer that returns its input and a
      non-rehydrate action, the state is `{ [key]: false }`. */
  lemma InitialState(key: string, action: Action)
    requires action.actionType != RehydrateStore
    ensures EnhancedReduce((s, a) => s, key, None, action) == map[key := Bool(false)]
  {
  }

  /** Whatever the caller's reducer does, the reserved slot evolves exactly as
      the flag reducer folded over the same actions. */
  lemma {:induction false} FlagSliceFollowsReducer(reducer: CallerReducer, key: string, s: State, actions: seq<Action>)
    ensures Lookup(FoldEnhanced(reducer, key, s, actions), key) == Reducer.Fold(Lookup(s, key), actions)
    decreases |actions|
  {
    if actions != [] {
      var s' := EnhancedReduce(reducer, key, Some(s), actions[0]);
      FlagSliceFollowsReducer(reducer, key, s', actions[1..]);
    }
  }

  /** The effect hook handed to the offline queue. A queued request goes to the
      wrapped transport directly (`send` is what that transport does with it);
      on success a callable callback is called once with the response, and the
      response is the result. Any other action goes to the caller's effect, or
      is rejected when there is none. */
  function RunEffect(config: Config, effect: Effect, action: Action, send: Settlement<Response>): (r: (seq<Event>, Settlement<Response>))
    ensures Dispatched(r.0) == [] && Writes(r.0) == []
    ensures action.actionType == ApolloOfflineQueue ==>
              && (forall e :: e in r.0 ==> e.TransportSend? || e.CallbackInvoked?)
              && |r.0| > 0 && r.0[0] == TransportSend(effect.request)
              && Sends(r.0) == [effect.request]
              && Callbacks(r.0) == (if send.Fulfilled? && IsCallable(effect.callback)
                                    then [(effect.callback, send.value)] else [])
              && r.1 == send
    ensures action.actionType != ApolloOfflineQueue ==>
              && Sends(r.0) == [] && Callbacks(r.0) == []
              && (config.effect.Some? ==>
                    r.0 == [CallerEffect(effect, action)] && r.1 == config.effect.value(effect, action))
              && (config.effect.None? ==>
                    r.0 == [] && r.1 == Rejected(Str("Unhandled offline effect")))
  {
    if action.actionType == ApolloOfflineQueue then
      var sent := [TransportSend(effect.request)];
      match send
      case Fulfilled(data) =>
        var called := if IsCallable(effect.callback) then [CallbackInvoked(effect.callback, data)] else [];
        FiltersAppend(sent, called);
        (sent + called, Fulfilled(data))
      case Rejected(e) => (sent, Rejected(e))
      case Pending => (sent, Pending)
    else if config.effect.Some? then
      ([CallerEffect(effect, action)], config.effect.value(effect, action))
    else
      ([], Rejected(Str("Unhandled offline effect")))
  }

  /** The rehydrate action. */
  const RehydrateAction: Action := Action(RehydrateStore, NoMeta)

  /** The persist callback handed to the offline queue: the caller's callback
      first, if any, then exactly one rehydrate dispatch to `store`, the store
      the enhancer created. The result is the trace and the exception that
      escapes, if any: a throwing caller callback ends the run before the
      dispatch. */
  function PersistCallback(config: Config, store: StoreRef): (r: (seq<Event>, Option<Value>))
    ensures Dispatched(r.0) == (if config.persistCallback.Throws? then [] else [RehydrateAction])
    ensures !config.persistCallback.Throws? ==>
              r.1 == None && |r.0| > 0 && r.0[|r.0| - 1] == Dispatch(store, RehydrateAction)
    ensures config.persistCallback.Throws? ==> r.1 == Some(config.persistCallback.reason)
    ensures !config.persistCallback.NoCallback? <==> CallerPersistCallback in r.0
    ensures !config.persistCallback.NoCallback? ==> r.0[0] == CallerPersistCallback
    ensures |r.0| == (match config.persistCallback
                      case NoCallback => 1
                      case Returns => 2
                      case Throws(_) => 1)
  {
    match config.persistCallback
    case Throws(reason) => ([CallerPersistCallback], Some(reason))
    case _ =>
      var first := if config.persistCallback.Returns? then [CallerPersistCallback] else [];
      FiltersAppend(first, [Dispatch(store, RehydrateAction)]);
      (first + [Dispatch(store, RehydrateAction)], None)
  }

  /** Applying the enhancer: `created` is the store `createStore` returns; it is
      attached to the interceptor, which keeps its client. */
  function Enhance(i: Transport.Interceptor, key: Option<string>, config: Config, created: StoreRef): (e: Enhanced)
    ensures e.store == created
    ensures e.interceptor.store == Some(created) && e.interceptor.client == i.client
    ensures key.None? ==> e.key == "rehydrated"
    ensures key.Some? ==> e.key == key.value
    ensures e.persistOptions.blacklist == Some(Blacklist(config.persistOptions, e.key))
    ensures e.persistOptions == OfflinePersistOptions(config.persistOptions, e.key)
  {
    var k := if key.Some? then key.value else DefaultRehydratedKey;
    Enhanced(created, i.(store := Some(created)), k, OfflinePersistOptions(config.persistOptions, k))
  }
}

=== FILE: integration.dfy ===
/** How the interceptor, the enhancer's hooks and the flag reducer fit
    together across calls: a queued request is later sent by the effect hook
    and settles the original promise; the persist callback marks the store
    rehydrated for good; enhancing a store turns on queueing. */
module Integration {
  import opened Values
  import opened Messages
  import Reducer
  import Transport
  import Enhancer

  /** Once the enhancer has attached its store, every request that does not
      try the cache is queued by one dispatch to that store, and the transport
      is not called. */
  lemma EnhanceEnablesQueueing(
    i: Transport.Interceptor, key: Option<string>, config: Enhancer.Config, created: StoreRef,
    req: Request, self: PromiseId,
    read: Transport.CacheReadResult, send: Settlement<Response>, write: Transport.CacheWriteResult)
    requires !Transport.OfflineRequested(req) || i.client.None?
    ensures var o := Transport.Query(Enhancer.Enhance(i, key, config, created).interceptor, req, self, read, send, write);
      o.path == Transport.Queued && o.events == [Dispatch(created, Transport.QueueAction(req, self))]
  {
  }

  /** A queued request, when the offline queue runs its effect and the wrapped
      transport answers `r`: the identical request is sent once, and the
      original query's promise is fulfilled with exactly `r`. */
  lemma {:induction false} QueuedRequestCompletes(
    i: Transport.Interceptor, req: Request, self: PromiseId,
    read: Transport.CacheReadResult, send: Settlement<Response>, write: Transport.CacheWriteResult,
    config: Enhancer.Config, r: Response)
    requires !Transport.TriesCache(i, req) && i.store.Some?
    ensures var o := Transport.Query(i, req, self, read, send, write);
      var a := Dispatched(o.events)[0];
      var run := Enhancer.RunEffect(config, a.meta.effect, a, Fulfilled(r));
      Sends(run.0) == [req]
      && Deliver(run.0, self, o.result) == Fulfilled(r)
      && run.1 == Fulfilled(r)
  {
    var o := Transport.Query(i, req, self, read, send, write);
    Transport.QueuedActionShape(i, req, self, read, send, write);
    var a := Dispatched(o.events)[0];
    var run := Enhancer.RunEffect(config, a.meta.effect, a, Fulfilled(r));
    var sent := [TransportSend(req)];
    var called := [CallbackInvoked(Resolver(self), r)];
    assert run.0 == sent + called;
    DeliverAppend(sent, called, self, o.result);
  }

  /** A queued request whose send fails or never completes leaves the original
      promise pending: settling it is left to the offline queue's retries. */
  lemma QueuedRequestFailureKeepsPending(
    i: Transport.Interceptor, req: Request, self: PromiseId,
    read: Transport.CacheReadResult, send: Settlement<Response>, write: Transport.CacheWriteResult,
    config: Enhancer.Config, inner: Settlement<Response>)
    requires !Transport.TriesCache(i, req) && i.store.Some?
    requires !inner.Fulfilled?
    ensures var o := Transport.Query(i, req, self, read, send, write);
      var a := Dispatched(o.events)[0];
      var run := Enhancer.RunEffect(config, a.meta.effect, a, inner);
      Deliver(run.0, self, o.result) == Pending && run.1 == inner
  {
  }

  /** The persist callback of an enhanced store dispatches to the store that
      was created, unless the caller's own callback throws. Once that dispatch
      has been reduced, the reserved slot holds `true` from any prior state,
      and keeps it whatever the store reduces afterwards. When the caller's
      callback throws, nothing is dispatched and the slot is whatever the
      store's own actions make it. */
  lemma {:induction false} PersistCallbackRehydrates(
    i: Transport.Interceptor, key: Option<string>, config: Enhancer.Config, created: StoreRef,
    reducer: Enhancer.CallerReducer, s: Enhancer.State, later: seq<Action>)
    ensures var e := Enhancer.Enhance(i, key, config, created);
      var es := Enhancer.PersistCallback(config, e.store).0;
      var slot := Enhancer.Lookup(Enhancer.FoldEnhanced(reducer, e.key, s, Dispatched(es) + later), e.key);
      && (!config.persistCallback.Throws? ==>
            es[|es| - 1] == Dispatch(created, Enhancer.RehydrateAction) && slot == Bool(true))
      && (config.persistCallback.Throws? ==>
            slot == Enhancer.Lookup(Enhancer.FoldEnhanced(reducer, e.key, s, later), e.key))
  {
    var e := Enhancer.Enhance(i, key, config, created);
    var dispatched := Dispatched(Enhancer.PersistCallback(config, e.store).0);
    Enhancer.FlagSliceFollowsReducer(reducer, e.key, s, dispatched + later);
    if !config.persistCallback.Throws? {
      assert dispatched == [Enhancer.RehydrateAction];
      assert Reducer.Fold(Enhancer.Lookup(s, e.key), dispatched) == Bool(true);
      Reducer.NeverReverts(Enhancer.Lookup(s, e.key), dispatched, later);
    } else {
      assert dispatched + later == later;
    }
  }

  /** Until the rehydrate action arrives, a fresh store (the flag absent)
      reports `false` in the reserved slot after any non-empty run of actions. */
  lemma {:induction false} NotRehydratedUntilSignalled(
    reducer: Enhancer.CallerReducer, key: string, s: Enhancer.State, actions: seq<Action>)
    requires key !in s
    requires actions != [] && !Reducer.HasRehydrate(actions)
    ensures Enhancer.Lookup(Enhancer.FoldEnhanced(reducer, key, s, actions), key) == Bool(false)
  {
    Enhancer.FlagSliceFollowsReducer(reducer, key, s, actions);
    Reducer.FoldFromUndefined(actions);
  }
}

=== FILE: messages.dfy ===
/** The shapes that travel between the interceptor, the store and the offline
    queue: requests, responses, redux actions, and the ordered trace of side
    effects a call performs, with filters that pick one kind of side effect. */
module Messages {
  import opened Values
  import opened Constants

  /** An Apollo request. `query` is the parsed document (opaque here);
      `variables` is the optional variables bag. */
  datatype Request = Request(operationName: string, query: Value, variables: Option<map<string, Value>>)

  /** What a transport resolves with: `{ data, errors? }`. */
  datatype Response = Response(data: Value, errors: Option<seq<Value>>)

  /** The identity of a promise created by the interceptor's `query`. */
  type PromiseId = nat

  /** The `callback` field of a queued effect: the `resolve` function of some
      query's promise, some other function, or a value that is not a function. */
  datatype Callback = Resolver(promise: PromiseId) | Function(id: nat) | NotCallable(v: Value)

  predicate IsCallable(c: Callback)
  {
    !c.NotCallable?
  }

  /** `meta.offline.effect`: the request to perform and whom to tell. */
  datatype Effect = Effect(request: Request, callback: Callback)

  datatype Meta =
    | NoMeta
    | RequestMeta(request: Request)                           // `{ request }`
    | OfflineMeta(commit: Action, effect: Effect, rollback: Action)  // `{ offline: { commit, effect, rollback } }`

  /** A redux action `{ type, meta? }`. */
  datatype Action = Action(actionType: ActionType, meta: Meta)

  datatype StoreRef = StoreRef(id: nat)
  datatype ClientRef = ClientRef(id: nat)

  /** One observable side effect, in the order it happens. */
  datatype Event =
    | CacheRead(request: Request)                         // client.readQuery(request)
    | CacheWrite(request: Request, data: Value)           // client.writeQuery({ ...request, data })
    | Dispatch(store: StoreRef, action: Action)           // store.dispatch(action)
    | TransportSend(request: Request)                     // wrapped transport's query(request)
    | TransportUse(wares: Value)                          // wrapped transport's use(middlewares)
    | TransportUseAfter(wares: Value)                     // wrapped transport's useAfter(afterwares)
    | CallbackInvoked(callback: Callback, response: Response)
    | CallerEffect(effect: Effect, action: Action)        // the application's own effect function
    | CallerPersistCallback                               // the application's own persist callback

  /** The per-event contributions `f` makes, concatenated in trace order. */
  function Collect<T>(es: seq<Event>, f: Event -> seq<T>): (r: seq<T>)
    ensures es == [] ==> r == []
    ensures |es| == 1 ==> r == f(es[0])
  {
    if es == [] then [] else f(es[0]) + Collect(es[1..], f)
  }

  function SendOf(e: Event): seq<Request>
  {
    if e.TransportSend? then [e.request] else []
  }

  function ReadOf(e: Event): seq<Request>
  {
    if e.CacheRead? then [e.request] else []
  }

  function DispatchOf(e: Event): seq<Action>
  {
    if e.Dispatch? then [e.action] else []
  }

  function WriteOf(e: Event): seq<(Request, Value)>
  {
    if e.CacheWrite? then [(e.request, e.data)] else []
  }

  function CallbackOf(e: Event): seq<(Callback, Response)>
  {
    if e.CallbackInvoked? then [(e.callback, e.response)] else []
  }

  /** The requests handed to the wrapped transport, in order. */
  function Sends(es: seq<Event>): seq<Request>
  {
    Collect(es, SendOf)
  }

  /** The requests read from the cache, in order. */
  function Reads(es: seq<Event>): seq<Request>
  {
    Collect(es, ReadOf)
  }

  /** The actions dispatched, to whichever store, in order. */
  function Dispatched(es: seq<Event>): seq<Action>
  {
    Collect(es, DispatchOf)
  }

  /** The cache writes, as (request, data) pairs, in order. */
  function Writes(es: seq<Event>): seq<(Request, Value)>
  {
    Collect(es, WriteOf)
  }

  /** The callback invocations, in order. */
  function Callbacks(es: seq<Event>): seq<(Callback, Response)>
  {
    Collect(es, CallbackOf)
  }

  /** The settlement of promise `p` after the callback invocations in `es` ran,
      starting from `s`: each call of `p`'s resolver resolves it once. */
  function Deliver(es: seq<Event>, p: PromiseId, s: Settlement<Response>): Settlement<Response>
  {
    if es == [] then s else Deliver(es[1..], p, DeliverStep(es[0], p, s))
  }

  /** The effect of one event on promise `p`: only a call of `p`'s own
      resolver can settle it. */
  function DeliverStep(e: Event, p: PromiseId, s: Settlement<Response>): Settlement<Response>
  {
    match e
    case CallbackInvoked(Resolver(q), r) => if q == p then Resolve(s, r) else s
    case _ => s
  }

  /** Collecting over a concatenated trace is collecting over its parts. */
  lemma {:induction false} CollectAppend<T>(a: seq<Event>, b: seq<Event>, f: Event -> seq<T>)
    ensures Collect(a + b, f) == Collect(a, f) + Collect(b, f)
  {
    if a == [] {
      assert a + b == b;
    } else {
      assert (a + b)[0] == a[0] && (a + b)[1..] == a[1..] + b;
      CollectAppend(a[1..], b, f);
      assert f(a[0]) + (Collect(a[1..], f) + Collect(b, f))
          == (f(a[0]) + Collect(a[1..], f)) + Collect(b, f);
    }
  }

  /** Every filter distributes over concatenation of traces. */
  lemma FiltersAppend(a: seq<Event>, b: seq<Event>)
    ensures Sends(a + b) == Sends(a) + Sends(b)
    ensures Reads(a + b) == Reads(a) + Reads(b)
    ensures Dispatched(a + b) == Dispatched(a) + Dispatched(b)
    ensures Writes(a + b) == Writes(a) + Writes(b)
    ensures Callbacks(a + b) == Callbacks(a) + Callbacks(b)
  {
    CollectAppend(a, b, SendOf);
    CollectAppend(a, b, ReadOf);
    CollectAppend(a, b, DispatchOf);
    CollectAppend(a, b, WriteOf);
    CollectAppend(a, b, CallbackOf);
  }


  /** Delivering a concatenated trace is delivering its parts one after the other. */
  lemma {:induction false} DeliverAppend(a: seq<Event>, b: seq<Event>, p: PromiseId, s: Settlement<Response>)
    ensures Deliver(a + b, p, s) == Deliver(b, p, Deliver(a, p, s))
  {
    if a == [] {
      assert a + b == b;
    } else {
      assert (a + b)[1..] == a[1..] + b;
      DeliverAppend(a[1..], b, p, DeliverStep(a[0], p, s));
    }
  }

  /** A settled promise stays as it is, whatever callbacks run afterwards. */
  lemma {:induction false} DeliverKeepsSettled(es: seq<Event>, p: PromiseId, s: Settlement<Response>)
    requires !s.Pending?
    ensures Deliver(es, p, s) == s
  {
    if es != [] {
      DeliverKeepsSettled(es[1..], p, s);
    }
  }
}

=== FILE: reducer.dfy ===
/** The rehydrated-flag reducer: `false` until the offline queue reports that
    persisted state has been restored, `true` from then on. */
module Reducer {
  import opened Values
  import opened Constants
  import opened Messages

  /** One reducer step. An `Undefined` state takes the parameter default
      `false`; the rehydrate action sets the flag; anything else keeps it. */
  function Rehydrated(state: Value, action: Action): (r: Value)
    ensures action.actionType == RehydrateStore ==> r == Bool(true)
    ensures action.actionType != RehydrateStore && state == Undefined ==> r == Bool(false)
    ensures action.actionType != RehydrateStore && state != Undefined ==> r == state
  {
    var s := if state == Undefined then Bool(false) else state;
    if action.actionType == RehydrateStore then Bool(true) else s
  }

  /** The flag after the store has reduced `actions` in dispatch order. */
  function Fold(state: Value, actions: seq<Action>): Value
    decreases |actions|
  {
    if actions == [] then state else Fold(Rehydrated(state, actions[0]), actions[1..])
  }

  predicate HasRehydrate(actions: seq<Action>)
  {
    exists i :: 0 <= i < |actions| && actions[i].actionType == RehydrateStore
  }

  /** A rehydrate action occurs in a non-empty sequence iff it is the head or
      occurs in the tail. */
  lemma HasRehydrateCons(actions: seq<Action>)
    ensures actions != [] ==>
      (HasRehydrate(actions) <==>
       actions[0].actionType == RehydrateStore || HasRehydrate(actions[1..]))
  {
  }

  /** From a boolean flag, the result says whether the flag was already set or
      a rehydrate action occurred. */
  lemma {:induction false} FoldFromFlag(b: bool, actions: seq<Action>)
    ensures Fold(Bool(b), actions) == Bool(b || HasRehydrate(actions))
    decreases |actions|
  {
    if actions != [] {
      var b' := b || actions[0].actionType == RehydrateStore;
      FoldFromFlag(b', actions[1..]);
      HasRehydrateCons(actions);
    }
  }

  /** From the undefined initial state, any non-empty action sequence yields a
      boolean: `true` exactly when a rehydrate action occurred. */
  lemma {:induction false} FoldFromUndefined(actions: seq<Action>)
    requires actions != []
    ensures Fold(Undefined, actions) == Bool(HasRehydrate(actions))
  {
    var b := actions[0].actionType == RehydrateStore;
    FoldFromFlag(b, actions[1..]);
    HasRehydrateCons(actions);
  }

  /** `true` is absorbing: no action sequence resets the flag. */
  lemma {:induction false} TrueIsAbsorbing(actions: seq<Action>)
    ensures Fold(Bool(true), actions) == Bool(true)
  {
    FoldFromFlag(true, actions);
  }

  /** Reducing the same action twice is reducing it once. */
  lemma Idempotent(state: Value, action: Action)
    ensures Rehydrated(Rehydrated(state, action), action) == Rehydrated(state, action)
  {
  }

  /** Reducing a concatenation is reducing its parts one after the other. */
  lemma {:induction false} FoldAppend(state: Value, a: seq<Action>, b: seq<Action>)
    ensures Fold(state, a + b) == Fold(Fold(state, a), b)
    decreases |a|
  {
    if a == [] {
      assert a + b == b;
    } else {
      assert (a + b)[1..] == a[1..] + b;
      FoldAppend(Rehydrated(state, a[0]), a[1..], b);
    }
  }

  /** Once the flag is `true` after some prefix, it is `true` after any extension. */
  lemma {:induction false} NeverReverts(state: Value, a: seq<Action>, b: seq<Action>)
    requires Fold(state, a) == Bool(true)
    ensures Fold(state, a + b) == Bool(true)
  {
    FoldAppend(state, a, b);
    TrueIsAbsorbing(b);
  }
}

=== FILE: transport.dfy ===
/** The offline network interface: a decorator in front of a real transport
    that, per request, serves from the cache, queues for the offline queue, or
    passes the request straight through. */
module Transport {
  import opened Values
  import opened Constants
  import opened Messages

  /** The interceptor's late-bound references. The wrapped transport is
      external; it appears only through the events it receives. */
  datatype Interceptor = Interceptor(store: Option<StoreRef>, client: Option<ClientRef>)

  /** The three ways `query` can handle a request. */
  datatype Path = Optimistic | Queued | PassThrough

  /** What `client.readQuery(request)` does for this request: return a value or throw. */
  datatype CacheReadResult = Hit(value: Value) | ReadThrows(reason: Value)

  /** What `client.writeQuery(...)` does: return normally or throw. */
  datatype CacheWriteResult = Written | WriteThrows(reason: Value)

  /** Everything a call to `query` does: the path taken, the side effects in
      order, the settlement of the returned promise, and, on the optimistic
      path only, the settlement of the detached background-refresh chain. */
  datatype Outcome = Outcome(
    path: Path,
    events: seq<Event>,
    result: Settlement<Response>,
    background: Option<Settlement<Value>>)

  /** `variables && variables.__offline__` */
  predicate OfflineRequested(req: Request)
  {
    req.variables.Some? && "__offline__" in req.variables.value
    && Truthy(req.variables.value["__offline__"])
  }

  /** The guard of the optimistic branch: the flag and an attached client. */
  predicate TriesCache(i: Interceptor, req: Request)
  {
    OfflineRequested(req) && i.client.Some?
  }

  /** The action dispatched to queue `req`; its callback resolves promise `p`. */
  function QueueAction(req: Request, p: PromiseId): Action
  {
    Action(ApolloOfflineQueue, OfflineMeta(
      Action(ApolloOfflineCommit, RequestMeta(req)),
      Effect(req, Resolver(p)),
      Action(ApolloOfflineRollback, RequestMeta(req))))
  }

  /** `.catch(() => {})`: every rejection becomes a fulfilment with `undefined`. */
  function Swallow(s: Settlement<Value>): (r: Settlement<Value>)
    ensures !r.Rejected?
    ensures !s.Rejected? ==> r == s
  {
    if s.Rejected? then Fulfilled(Undefined) else s
  }

  /** The background refresh started on the optimistic path: the request is
      sent, and on success its data is written back into the cache. The chain
      before the final catch rejects when the send or the write fails. */
  function Refresh(req: Request, send: Settlement<Response>, write: CacheWriteResult): (r: (seq<Event>, Settlement<Value>))
    ensures Reads(r.0) == [] && Sends(r.0) == [] && Dispatched(r.0) == []
    ensures Writes(r.0) == (if send.Fulfilled? then [(req, send.value.data)] else [])
    ensures forall e :: e in r.0 ==> e.CacheWrite?
    ensures r.1.Rejected? <==> send.Rejected? || (send.Fulfilled? && write.WriteThrows?)
  {
    match send
    case Pending => ([], Pending)
    case Rejected(e) => ([], Rejected(e))
    case Fulfilled(resp) =>
      var ev := [CacheWrite(req, resp.data)];
      match write
      case Written => (ev, Fulfilled(Undefined))       // writeQuery returns nothing
      case WriteThrows(e) => (ev, Rejected(e))
  }

  /** The side effects `query` may have on its own: cache reads and writes,
      sends on the wrapped transport, and dispatches to the store. */
  predicate InterceptorEvent(e: Event)
  {
    e.CacheRead? || e.CacheWrite? || e.TransportSend? || e.Dispatch?
  }

  /** The trace of the optimistic branch: one cache read, then one send, then
      whatever `tail` (the background refresh) does. */
  function ReadThenSend(req: Request, tail: seq<Event>): (es: seq<Event>)
    ensures |es| == |tail| + 2 && es[0] == CacheRead(req) && es[1] == TransportSend(req)
    ensures Reads(es) == [req] + Reads(tail) && Sends(es) == [req] + Sends(tail)
    ensures Dispatched(es) == Dispatched(tail) && Writes(es) == Writes(tail)
    ensures forall e :: e in es ==> e in tail || e == CacheRead(req) || e == TransportSend(req)
  {
    FiltersAppend([CacheRead(req)], [TransportSend(req)] + tail);
    FiltersAppend([TransportSend(req)], tail);
    [CacheRead(req)] + ([TransportSend(req)] + tail)
  }

  /** `query(request)`: `self` is the identity of the promise it returns; `read`,
      `send` and `write` are what the cache read, the wrapped transport's send
      and the cache write do for this request, whenever they are called. */
  function Query(
    i: Interceptor, req: Request, self: PromiseId,
    read: CacheReadResult, send: Settlement<Response>, write: CacheWriteResult): (o: Outcome)
    // each call takes exactly one path, decided by the guards in source order
    ensures o.path == Optimistic <==> TriesCache(i, req) && read.Hit?
    ensures o.path == Queued <==> !TriesCache(i, req) && i.store.Some?
    ensures o.path == PassThrough <==>
              (TriesCache(i, req) && read.ReadThrows?) || (!TriesCache(i, req) && i.store.None?)
    // the cache is read exactly when the optimistic guard holds, and read first
    ensures TriesCache(i, req) <==> |o.events| > 0 && o.events[0] == CacheRead(req)
    // unless queued, the identical request reaches the wrapped transport once
    ensures o.path != Queued ==> Sends(o.events) == [req] && Dispatched(o.events) == []
    // queued: one dispatch to the attached store, the transport untouched,
    // the promise left pending
    ensures o.path == Queued ==>
              o.events == [Dispatch(i.store.value, QueueAction(req, self))]
              && o.result == Pending
    // the cache is read once, for this request, exactly when the guard holds
    ensures Reads(o.events) == (if TriesCache(i, req) then [req] else [])
    // the send comes straight after the read; fresh data is written back only
    // on the optimistic path and only when the background send succeeds
    ensures o.path == Optimistic ==> |o.events| >= 2 && o.events[1] == TransportSend(req)
    ensures Writes(o.events) ==
              (if o.path == Optimistic && send.Fulfilled? then [(req, send.value.data)] else [])
    // nothing else happens: no callback, no application hook, no middleware
    ensures forall e :: e in o.events ==> InterceptorEvent(e)
    ensures o.path == PassThrough ==> o.result == send
    ensures o.path == Optimistic ==> o.result == Fulfilled(Response(read.value, None))
    // only the optimistic path leaves a background chain, and it never rejects
    ensures o.background.Some? <==> o.path == Optimistic
    ensures o.background.Some? ==> !o.background.value.Rejected?
  {
    if TriesCache(i, req) then
      match read
      case Hit(v) =>
        var (tail, chain) := Refresh(req, send, write);
        Outcome(Optimistic, ReadThenSend(req, tail), Fulfilled(Response(v, None)), Some(Swallow(chain)))
      case ReadThrows(_) =>
        // the failed read falls through to the plain send, never to the queue
        Outcome(PassThrough, ReadThenSend(req, []), send, None)
    else if i.store.Some? then
      Outcome(Queued, [Dispatch(i.store.value, QueueAction(req, self))], Pending, None)
    else
      Outcome(PassThrough, [TransportSend(req)], send, None)
  }

  /** The one queued action carries the input request in its effect, the
      promise's resolver as callback, and commit and rollback actions that
      name the same request. */
  lemma QueuedActionShape(
    i: Interceptor, req: Request, self: PromiseId,
    read: CacheReadResult, send: Settlement<Response>, write: CacheWriteResult)
    requires !TriesCache(i, req) && i.store.Some?
    ensures var o := Query(i, req, self, read, send, write);
      |Dispatched(o.events)| == 1
      && var a := Dispatched(o.events)[0];
      && a.actionType == ApolloOfflineQueue
      && a.meta.OfflineMeta?
      && a.meta.effect.request == req
      && a.meta.effect.callback == Resolver(self)
      && a.meta.commit == Action(ApolloOfflineCommit, RequestMeta(req))
      && a.meta.rollback == Action(ApolloOfflineRollback, RequestMeta(req))
  {
  }

  /** Calling the queued action's callback with `r` settles the pending query
      with exactly `r`; later calls change nothing. */
  lemma {:induction false} CallbackResolvesQuery(
    i: Interceptor, req: Request, self: PromiseId,
    read: CacheReadResult, send: Settlement<Response>, write: CacheWriteResult,
    r: Response, later: seq<Event>)
    requires !TriesCache(i, req) && i.store.Some?
    ensures var o := Query(i, req, self, read, send, write);
      var cb := Dispatched(o.events)[0].meta.effect.callback;
      Deliver([CallbackInvoked(cb, r)] + later, self, o.result) == Fulfilled(r)
  {
    var o := Query(i, req, self, read, send, write);
    var cb := Dispatched(o.events)[0].meta.effect.callback;
    DeliverAppend([CallbackInvoked(cb, r)], later, self, o.result);
    DeliverKeepsSettled(later, self, Fulfilled(r));
  }

  /** On the optimistic path, the cached value is the answer whatever the
      background send and the cache write do; the fresh data is written back
      under the same request exactly when the send succeeds. */
  lemma OptimisticIgnoresBackground(
    i: Interceptor, req: Request, self: PromiseId, v: Value,
    send1: Settlement<Response>, write1: CacheWriteResult,
    send2: Settlement<Response>, write2: CacheWriteResult)
    requires TriesCache(i, req)
    ensures var o1 := Query(i, req, self, Hit(v), send1, write1);
      var o2 := Query(i, req, self, Hit(v), send2, write2);
      o1.path == o2.path == Optimistic
      && o1.result == o2.result == Fulfilled(Response(v, None))
      && Dispatched(o1.events) == []
      && Writes(o1.events) == (if send1.Fulfilled? then [(req, send1.value.data)] else [])
  {
  }

  /** `setClient(client)`: the client is replaced, the store is kept, and the
      same interceptor is returned for chaining. */
  function SetClient(i: Interceptor, c: ClientRef): (r: Interceptor)
    ensures r.client == Some(c) && r.store == i.store
  {
    i.(client := Some(c))
  }

  /** `use(middlewares)`: forwarded once, unchanged, to the wrapped transport;
      the interceptor itself is returned unchanged. */
  function Use(i: Interceptor, wares: Value): (r: (Interceptor, seq<Event>))
    ensures r.0 == i && r.1 == [TransportUse(wares)]
  {
    (i, [TransportUse(wares)])
  }

  /** `useAfter(afterwares)`: as `use`, for afterware. */
  function UseAfter(i: Interceptor, wares: Value): (r: (Interceptor, seq<Event>))
    ensures r.0 == i && r.1 == [TransportUseAfter(wares)]
  {
    (i, [TransportUseAfter(wares)])
  }

  /** Applying middleware or afterware changes none of the interceptor's later
      decisions: every query takes the same path with the same effects. */
  lemma WaresKeepDecisions(
    i: Interceptor, mw: Value, aw: Value, req: Request, self: PromiseId,
    read: CacheReadResult, send: Settlement<Response>, write: CacheWriteResult)
    ensures Query(UseAfter(Use(i, mw).0, aw).0, req, self, read, send, write)
         == Query(i, req, self, read, send, write)
    ensures Use(i, mw).1 + UseAfter(Use(i, mw).0, aw).1 == [TransportUse(mw), TransportUseAfter(aw)]
  {
  }

  /** After `setClient`, an offline-flagged request whose cache read succeeds is
      answered from the cache whether or not a store is attached; the last
      client set is the one in effect. */
  lemma SetClientEnablesCache(
    i: Interceptor, c: ClientRef, c2: ClientRef, req: Request, self: PromiseId, v: Value,
    send: Settlement<Response>, write: CacheWriteResult)
    requires OfflineRequested(req)
    ensures Query(SetClient(i, c), req, self, Hit(v), send, write).path == Optimistic
    ensures SetClient(SetClient(i, c), c2) == SetClient(i, c2)
  {
  }
}

=== FILE: values.dfy ===
/** JavaScript values, as far as the library inspects them, and the observable
    state of a promise. Objects, arrays and functions are opaque references. */
module Values {

  datatype Option<+T> = None | Some(value: T)

  /** A JavaScript value. `Ref` stands for any object, array or function,
      identified by reference. NaN and negative zero are not distinguished. */
  datatype Value =
    | Undefined
    | Null
    | Bool(b: bool)
    | Num(n: int)
    | Str(s: string)
    | Ref(id: nat)

  /** JavaScript truthiness: what `if (v)` and `a && b` test. */
  predicate Truthy(v: Value)
  {
    match v
    case Undefined => false
    case Null => false
    case Bool(b) => b
    case Num(n) => n != 0
    case Str(s) => s != ""
    case Ref(_) => true
  }

  /** The state of a promise once the synchronous part of a call has run.
      A promise that is never settled stays `Pending`. */
  datatype Settlement<+T> = Pending | Fulfilled(value: T) | Rejected(reason: Value)

  /** Calling a promise's `resolve` function: only the first settlement counts. */
  function Resolve<T>(s: Settlement<T>, v: T): Settlement<T>
  {
    if s.Pending? then Fulfilled(v) else s
  }
}
